=== FILE: README.md ===
# TimeSeriesPlots core, modelled in Dafny

TimeSeriesPlots is an iOS screen that plots time series with CorePlot. It also has a small journal-entry
persistence class. Most of the code is toolkit glue. This project models the parts that carry logic of
their own:

- **Adaptive x-axis ticks** (`tick_policy.dfy`, module `TickPolicy`). The plot-space delegate maps the
  visible time length to a major tick interval and a date-label format. It uses a ladder of strict `>`
  comparisons: 12, 5 and 2 days, then 20 and 8 hours. The ladder is written twice, once as the source's
  if-chain and once as a table of rungs, and the two are proved to agree.
- **Plot space** (`plot_space.dfy`, module `PlotSpace`). X pan/zoom requests pass through unchanged and
  retune the axis. Y requests are answered with the current y range, so y never moves. The module also
  covers the initial 30-day window, the reset button, and how a sample's absolute timestamp becomes a plot
  x coordinate and then a label instant.
- **Palette** (`palette.dfy`, module `Palette`). A curve's colour slot is the first index of its name in
  the registration list, modulo 3. The full and dim lookups share that slot.
- **Highlight and reset** (`highlight.dfy`, module `Highlight`). Styles are a map from plot id to
  `Normal`/`Dim`. A tap dims every other curve. The delayed reset restores every curve. Curves whose
  lower-cased id contains "highlight" (overlays) are never touched. The source's loops are modelled as
  methods and proved equal to map-comprehension definitions.
- **Screen** (`screen.dfy`, module `Screen`). The screen is a state machine over host events: range
  requests, symbol taps, reset-timer firings and the reset button. It has a single annotation slot and a
  count of pending resets. It starts from the corrected initial state of the finding below, and from
  there its invariant holds after any event sequence:
  - y never moves;
  - the axis matches the x window and its labels stay referenced to `refDate`;
  - overlays stay normal;
  - the plot area shows at most one annotation, the one in the slot.
- **Journal** (`journal.dfy`, modules `Journal` and `JournalArchive`):
  - the failable initializer and the three-key coder round trip;
  - save and load both return the entries newest first, holding exactly the input entries;
  - any two newest-first orderings of the same entries agree date by date.

Times are `real` seconds. Colours are RGBA in hundredths. Photos are opaque tokens. The coder is a
`map<string, Value>`. `wrappers.dfy` holds the `Option` type.

### Behaviours of the code worth noting

- curve registration appends even a name that is already registered, and lookups use the first
  occurrence (`Palette.RegisterKeepsSlots`);
- a tap never brightens the tapped curve (`Highlight.SecondTapLeavesAllDim`);
- a later tap does not cancel an earlier tap's reset (`Screen.EarlierResetEndsLaterHighlight`);
- zero and negative lengths get two-hour ticks rather than an error (`TickPolicy.ShortLengthsGetTwoHourTicks`).

## Model

| member | source | states |
|---|---|---|
| TickPolicy.TickSpecFor | TimeSeriesPlots/ViewController.swift:196-220 | The label reference date is `refDate` in every branch. The format is day-only exactly when the interval is at least a day. The hour-and-minute format is used exactly when the length is at most 8 h. The interval is always between 2 h and 4 days. |
| TickPolicy.LadderIsFirstMatchingRung | TimeSeriesPlots/ViewController.swift:196-217 | The if-chain gives the interval and format of the first rung of the table (12 d→4 d, 5 d→2 d, 2 d→1 d, 20 h→12 h, 8 h→4 h) whose threshold the length strictly exceeds, or 2 h with the minute format when none matches. |
| TickPolicy.LookUpTickSpec | TimeSeriesPlots/ViewController.swift:196-217 | Walking the table top-down finds the first matching rung, and its answer equals the ladder's. |
| TickPolicy.BoundaryFallsToNextRung | TimeSeriesPlots/ViewController.swift:196-217 | A length exactly equal to a threshold gets the next rung down (strict comparison). |
| TickPolicy.TwelveDaysGetsTwoDayTicks | TimeSeriesPlots/ViewController.swift:196-201 | Exactly 12 days gets a 2-day interval with "MMM dd". |
| TickPolicy.ShortLengthsGetTwoHourTicks | TimeSeriesPlots/ViewController.swift:211-217 | Every length ≤ 8 h, zero and negative included, gets 2 h ticks and "MMM dd\nh:00 a". There is no error path. |
| TickPolicy.IntervalMonotone | TimeSeriesPlots/ViewController.swift:196-217 | A longer visible length never gets a smaller tick interval. |
| TickPolicy.ReferenceDateIndependentOfZoom | TimeSeriesPlots/ViewController.swift:218-220 | The formatter's reference date is the same whatever the length. |
| PlotSpace.FilterRange | TimeSeriesPlots/ViewController.swift:182-226 | For X the delegate answers the requested range unchanged, including the negative-location copy branch. For any other coordinate it answers the current y range. |
| PlotSpace.ApplyRangeRequest | TimeSeriesPlots/ViewController.swift:182-226 | An X request sets the x range and retunes the axis to the ladder's spec for the new length. A Y request changes nothing. The y range is always kept. |
| PlotSpace.YRangeNeverMoves | TimeSeriesPlots/ViewController.swift:222-224 | After any sequence of pan/zoom requests the y range is the one before them. |
| PlotSpace.RequestsKeepAxisMatched | TimeSeriesPlots/ViewController.swift:186-221 | Once the axis matches the x length, it still matches after any requests. The x range is the last X request, or unchanged if every request was Y. |
| PlotSpace.ResetButton | TimeSeriesPlots/ViewController.swift:67-71 | The two assignments as written restore exactly the initial x range (location 0, length 30 d) and y range (location −3, length 14), and leave the axis spec as it was. |
| PlotSpace.ResetViaDelegate | TimeSeriesPlots/ViewController.swift:67-71 | The same two assignments through the plot space's setters, x first. A setter handed the range already shown changes nothing; otherwise the delegate answers. x ends at the initial window. The axis is retuned to match it exactly when x had moved, and otherwise keeps whatever reference it had. y, being refused, keeps its range, which is the initial one whenever y has never moved. |
| PlotSpace.ResetRoutesDifferOnlyInAxis | TimeSeriesPlots/ViewController.swift:67-71 | When y has never moved, the direct assignments and the setter route give the same ranges. The setter route differs only in retuning the axis to the 30-day spec, and only when x had moved. |
| PlotSpace.InitialIntervalMatchesLadder | TimeSeriesPlots/ViewController.swift:62-63 | The initial 4-day interval and "MMM dd" format are what the ladder gives a 30-day window. |
| PlotSpace.LabelShowsTimestamp | TimeSeriesPlots/ViewController.swift:158-168 | With the axis referenced to `refDate`, the label under a sample's x offset (timestamp − refDate) is the sample's timestamp. |
| PlotSpace.XOffset | TimeSeriesPlots/ViewController.swift:165 | A sample's x plus `refDate` is its timestamp. The x is non-negative exactly when the sample is not older than `refDate`. |
| PlotSpace.LabelInstant | TimeSeriesPlots/ViewController.swift:218-220 | The instant a label renders for coordinate x is the one whose offset from the formatter's reference date is x. |
| PlotSpace.AppearRefDate | TimeSeriesPlots/ViewController.swift:127-128 | `refDate` lies before the appear instant, which sits exactly at the far end of the initial 30-day window. |
| PlotSpace.InitialWindowShowsLastThirtyDays | TimeSeriesPlots/ViewController.swift:127-129 | With `refDate` thirty days before appearance, every sample from those thirty days lies in the initial x window. |
| PlotSpace.AppearedSpaceAsWritten | TimeSeriesPlots/ViewController.swift:99-106 | As the code leaves it: initial ranges, a 4-day interval and "MMM dd", with the formatter referenced to `refDate`'s load-time value. |
| PlotSpace.InitialLabelsLagAsWritten | TimeSeriesPlots/ViewController.swift:124-129 | In that as-written state every label is 30 days, less the load-to-appear gap, later than its sample, for any load and appear instants. That is at least 29 days when the screen appears within a day of loading. |
| PlotSpace.AppearedSpace | TimeSeriesPlots/ViewController.swift:124-129 | Corrected initial state: initial ranges, axis matching the ladder, and every sample's label equal to its timestamp. |
| Palette.Register | TimeSeriesPlots/ViewController.swift:138-147 | Registration appends: every earlier name stays at its position and the new name goes last. |
| Palette.FirstIndex | TimeSeriesPlots/ViewController.swift:338 | The index is a position holding the name, with no earlier occurrence. |
| Palette.PlotColourFor | TimeSeriesPlots/ViewController.swift:337-341 | The full colour of a registered name is opaque. The name must be registered (force unwrap). |
| Palette.PlotDimColourFor | TimeSeriesPlots/ViewController.swift:342-346 | The dim colour of a registered name has alpha 0.3. |
| Palette.DimIsTranslucentFull | TimeSeriesPlots/ViewController.swift:49-58 | Both lookups use the same slot. The dim colour is the full colour with alpha 0.3. |
| Palette.RegisterKeepsSlots | TimeSeriesPlots/ViewController.swift:337-341 | Registering any further name, a duplicate included, never changes an already registered name's slot or colour. |
| Palette.FreshNameSlot | TimeSeriesPlots/ViewController.swift:337-339 | A name registered for the first time gets slot (number of earlier registrations) mod 3. That makes the assignment round-robin. |
| Palette.FourthSharesFirstSlot | TimeSeriesPlots/ViewController.swift:337-346 | With four distinct names registered, the fourth gets the first one's slot, full colour and dim colour. |
| Palette.OnlyTwoDistinctColours | TimeSeriesPlots/ViewController.swift:49-53 | Slots 1 and 2 hold the same magenta, so every name outside slot 0 looks alike. |
| Highlight.ContainsIffOccurs | TimeSeriesPlots/ViewController.swift:300 | The left-to-right substring scan succeeds exactly when the pattern occurs at some position. |
| Highlight.IsOverlay | TimeSeriesPlots/ViewController.swift:300 | A plot is an overlay exactly when "highlight" occurs somewhere in its lower-cased identifier. |
| Highlight.HighlightOutputCurves | TimeSeriesPlots/ViewController.swift:298-317 | The loop over all plots dims every plot except the tapped one and the overlays, which keep their style. It is equal to `Highlighted`. |
| Highlight.ResetOutputCurves | TimeSeriesPlots/ViewController.swift:319-336 | The loop sets every non-overlay plot, the tapped one included, to Normal. Overlays keep their style. It is equal to `Reset`. |
| Highlight.ResetAfterHighlight | TimeSeriesPlots/ViewController.swift:287-295 | A highlight followed by a reset gives the same styles as the reset alone, so every non-overlay curve is Normal. |
| Highlight.ResetIdempotent | TimeSeriesPlots/ViewController.swift:319-336 | Resetting twice is the same as resetting once. |
| Highlight.HighlightIdempotent | TimeSeriesPlots/ViewController.swift:298-317 | Tapping the same curve twice is the same as tapping it once. |
| Highlight.SecondTapLeavesAllDim | TimeSeriesPlots/ViewController.swift:298-317 | Tapping a second curve before the reset leaves every non-overlay curve Dim, the second one included. |
| Highlight.OverlaysUntouched | TimeSeriesPlots/ViewController.swift:298-336 | A curve whose lower-cased id contains "highlight" keeps its style through highlight and reset. |
| Highlight.MarkerIgnoresCase | TimeSeriesPlots/ViewController.swift:300 | "HighLight" is recognised as an overlay because the id is lower-cased first. |
| Screen.Appeared | TimeSeriesPlots/ViewController.swift:124-151 | The corrected appeared screen satisfies the invariant, draws every plot Normal, and shows the initial ranges. |
| Screen.AppearedAsWritten | TimeSeriesPlots/ViewController.swift:99-129 | The appeared screen as the code leaves it. Its plot space is the as-written one, and its label reference differs from `refDate` exactly when the load instant is not 30 days before the appear instant. |
| Screen.AsWrittenAgreesAfterFirstXRequest | TimeSeriesPlots/ViewController.swift:182-221 | Whatever taps, timer firings, y requests and reset presses come first, once the first x pan or zoom arrives the as-written screen equals the corrected one and satisfies the invariant. The lag lasts only until then. |
| Screen.ResetKeepsAsWrittenLabels | TimeSeriesPlots/ViewController.swift:67-71 | A reset press before any x pan or zoom leaves the as-written screen unchanged, labels included, so it does not end the lag. The invariant holds after it only when the load-time reference already equals `refDate`. |
| Screen.RunKeepsSameButAxis | TimeSeriesPlots/ViewController.swift:182-226 | Events other than an x pan or zoom never read the axis spec: two screens that differ only in it still differ only in it, with equal ranges, after any such events. |
| Screen.PlotPoint | TimeSeriesPlots/ViewController.swift:158-168 | A record's x is its timestamp minus `refDate` (x + refDate = timestamp), and its y is its value. |
| Screen.Tap | TimeSeriesPlots/ViewController.swift:269-296 | A tap fills the slot with an annotation naming the plot, anchored at (timestamp − refDate, value), and takes any different previous annotation down. With a plot area, the new annotation is shown, the styles become the highlight of the tapped plot, and one more reset is pending. Without one, nothing is restyled or scheduled. The ranges never change. |
| Screen.Without | TimeSeriesPlots/ViewController.swift:277 | Taking the slot's annotation down removes it and keeps everything else. |
| Screen.Step | TimeSeriesPlots/ViewController.swift:269-296 | No event changes the registration list, the data, `refDate` or the set of plots. Only taps touch the annotation slot and the plot area. Only range requests and the reset button move the ranges, and neither restyles curves or schedules resets. The reset button restores the initial x window and keeps y (the initial y when it has never moved). It leaves the space as it was when x is already at the initial window. The axis matches afterwards exactly when x had moved or it matched before. A firing reset returns every non-overlay curve to Normal. |
| Screen.StepKeepsInv | TimeSeriesPlots/ViewController.swift:269-296 | Every event preserves the invariant: y fixed, the axis matching the x window and referenced to `refDate`, overlays Normal, and at most one annotation shown, the one in the slot. |
| Screen.RunKeepsInv | TimeSeriesPlots/ViewController.swift:269-296 | Any sequence of events preserves the invariant. |
| Screen.TapShowsOneAnnotation | TimeSeriesPlots/ViewController.swift:269-287 | After a tap exactly one annotation is shown, in the slot: text = plot id, anchor = (timestamp − refDate, value). Every other non-overlay curve gets its dim colour, the tapped curve keeps its style, and one more reset is pending. |
| Screen.TapWithoutPlotAreaRestylesNothing | TimeSeriesPlots/ViewController.swift:277-284 | Without a plot area the old annotation still comes down and the slot is replaced, but nothing is restyled or scheduled. |
| Screen.EarlierResetEndsLaterHighlight | TimeSeriesPlots/ViewController.swift:287-295 | Tap, tap, then the first reset fires: every curve is Normal while the second reset is still pending. There is no cancellation. |
| Screen.LabelsShowRecordTimes | TimeSeriesPlots/ViewController.swift:158-168 | In every state satisfying the invariant, each record's label instant is its timestamp. |
| Journal.NewEntry | TimeSeriesPlots/JournalEntry.swift:31-41 | The result is nil exactly when the text is empty and there is no photo. Otherwise the entry stores the given text, photo and date unchanged and is valid. |
| Journal.Encode | TimeSeriesPlots/JournalEntry.swift:43-47 | The entry is written under exactly three distinct keys, and the result is decodable. |
| Journal.Decode | TimeSeriesPlots/JournalEntry.swift:48-55 | Text and date must be present (force casts). The result is nil exactly when the text is empty and there is no image under "photo". Otherwise it is the entry built from the three keys. |
| Journal.DecodeEncode | TimeSeriesPlots/JournalEntry.swift:43-55 | Decoding an encoded entry gives the entry back when it is valid and nil otherwise. |
| Journal.InitializedEntriesRoundTrip | TimeSeriesPlots/JournalEntry.swift:31-55 | Every entry the initializer produces survives encode/decode unchanged. |
| JournalArchive.NewestFirstIffAdjacent | TimeSeriesPlots/JournalEntry.swift:61-63 | Pairwise newest-first holds exactly when date[i] ≥ date[i+1] for each adjacent pair. |
| JournalArchive.SortNewestFirst | TimeSeriesPlots/JournalEntry.swift:60-63 | The sort result is newest first and a permutation of its input. |
| JournalArchive.Save | TimeSeriesPlots/JournalEntry.swift:59-64 | The list handed to the archiver is newest first and holds exactly the input entries. |
| JournalArchive.Load | TimeSeriesPlots/JournalEntry.swift:69-77 | The result is nil exactly when unarchiving yields nil. Otherwise it is the unarchived entries, newest first. |
| JournalArchive.SortedPermutationsShareDates | TimeSeriesPlots/JournalEntry.swift:60-63 | Any two newest-first orderings of the same entries have the same date sequence, whatever order ties end up in. |
| JournalArchive.LoadAfterSave | TimeSeriesPlots/JournalEntry.swift:59-77 | Loading what was saved gives back the same entries in the same date order. |

## Left out

- Rendering is not modelled. This covers CorePlot and UIKit: themes, padding, line widths, dash patterns, symbol shapes and sizes, fonts, the annotation's pixel displacement, `reloadData`, data labels, and the unused bar-plot factory. These are foreign calls with no stateable outcome.
- The 2-second `DispatchQueue.main.asyncAfter` delay is not modelled as time. Each tap adds one pending reset, and a reset firing is an explicit event. A firing with nothing pending changes nothing.
- Wall-clock reads (`Date()`, `NSDate()`) and the hard-coded sample data in `viewWillAppear` are not modelled. The load and appear instants are parameters, and the plot data is an arbitrary map.
- Floating point is not modelled. Seconds are exact `real`s, with no Double rounding in range, offset or label arithmetic. Colour components are exact hundredths.
- CorePlot's own code is not part of this model, including its hit-testing and how it adopts the delegate's answer. `PlotSpace.ApplyRangeRequest` assumes the plot space takes the answered range.
- Screen.Step: the reset button's two assignments are routed through the plot space's setters (`PlotSpace.ResetViaDelegate`). This assumes CorePlot's setters consult the delegate only when the new range differs from the one shown, and are no-ops otherwise. With that routing the axis is retuned to the 30-day spec on reset only when x had moved. The direct assignments are kept as `PlotSpace.ResetButton`, and `PlotSpace.ResetRoutesDifferOnlyInAxis` states how the two routes differ.
- PlotSpace.ResetViaDelegate: does not promise a matching axis after every reset press, because a setter handed the range already shown does not consult the delegate. The axis matches afterwards exactly when x had moved or it already matched. `Screen.Step` states the same.
- Screen.Appeared: the screen model starts from the corrected state of the finding below (labels referenced to `refDate`), not from the as-written one. `Screen.AppearedAsWritten` is the as-written start. It does not satisfy the invariant until the first x pan or zoom (`Screen.AsWrittenAgreesAfterFirstXRequest`); a reset press before then changes nothing (`Screen.ResetKeepsAsWrittenLabels`). Until then the as-written screen is covered only by `PlotSpace.InitialLabelsLagAsWritten`.
- Plot styles are keyed by plot identifier, while the source compares plot objects. Two plots sharing an identifier are not distinguished.
- Lower-casing covers ASCII letters only; Swift's `lowercased()` is Unicode-aware.
- The force casts of plot identifiers and plot classes inside the highlight loops are not modelled, because every plot here is a scatter plot with a string id. Neither is the `if let` on a missing line style, because every plot here has one.
- `NSKeyedArchiver`/`NSKeyedUnarchiver` file I/O, the Documents-directory path and the print on failure are not modelled. The archive is a store that yields a list of entries or nothing. `UIImage` is an opaque token.
- JournalArchive.SortNewestFirst: this is one particular newest-first sort (insertion), whereas Swift's sort is not stable. Only properties that every newest-first permutation has are claimed about save and load: order, same entries, and same date sequence. The relative order of entries with equal dates is not claimed.

## Findings

| source | as written | input that shows it | evidently intended | confidence | as-written member | corrected member |
|---|---|---|---|---|---|---|
| TimeSeriesPlots/ViewController.swift:102-106 | `viewDidLoad` gives the x-axis label formatter the value `refDate` holds when the controller is created. `viewWillAppear` (lines 127-129) then moves `refDate` thirty days back without re-referencing the formatter. | The view loads and appears at the same instant T, with no pan or zoom yet. A sample taken at T is plotted at x = 30 days and labelled T + 30 days. | The formatter references the same `refDate` that x offsets are computed from, so each label shows its sample's own time. From the first x pan or zoom on, lines 218-220 do exactly that. | medium; not executed | PlotSpace.InitialLabelsLagAsWritten | PlotSpace.AppearedSpace |

=== FILE: highlight.dfy ===
/**
 Curve highlighting after a tap: every other curve is dimmed, and the delayed
 reset restores all of them. Curves whose lower-cased identifier contains
 "highlight" are overlays and are never restyled.
 */
module Highlight {

  datatype Style = Normal | Dim

  /** Line style of every plot on the graph, by plot identifier. */
  type Styles = map<string, Style>

  const Marker: string := "highlight"

  /** ASCII lower-casing of one character. */
  function LowerChar(c: char): char {
    if 'A' <= c <= 'Z' then (c as int - 'A' as int + 'a' as int) as char else c
  }

  function Lower(s: string): string {
    seq(|s|, i requires 0 <= i < |s| => LowerChar(s[i]))
  }

  /** Substring search, scanning start positions left to right. */
  function Contains(s: string, pattern: string): bool
    requires |pattern| > 0
    decreases |s|
  {
    if |s| < |pattern| then false
    else s[..|pattern|] == pattern || Contains(s[1..], pattern)
  }

  /** `pattern` sits in `s` starting at position `i`. */
  ghost predicate MatchesAt(s: string, pattern: string, i: nat) {
    i + |pattern| <= |s| && s[i..i + |pattern|] == pattern
  }

  /** `pattern` occurs at some position of `s`. */
  ghost predicate OccursIn(pattern: string, s: string) {
    exists i: nat :: MatchesAt(s, pattern, i)
  }

  /** A window of the tail is the window of `s` one position further on. */
  lemma SliceOfTail(s: string, i: nat, n: nat)
    requires 1 + i + n <= |s|
    ensures s[1..][i..i + n] == s[i + 1..i + 1 + n]
  {
  }

  lemma {:induction false} ContainsIffOccurs(s: string, pattern: string)
    requires |pattern| > 0
    ensures Contains(s, pattern) <==> OccursIn(pattern, s)
    decreases |s|
  {
    if |s| >= |pattern| {
      ContainsIffOccurs(s[1..], pattern);
      if s[..|pattern|] == pattern {
        assert MatchesAt(s, pattern, 0);
      }
      if OccursIn(pattern, s[1..]) {
        var i: nat :| MatchesAt(s[1..], pattern, i);
        SliceOfTail(s, i, |pattern|);
        assert MatchesAt(s, pattern, i + 1);
      }
      if OccursIn(pattern, s) && s[..|pattern|] != pattern {
        var i: nat :| MatchesAt(s, pattern, i);
        assert i != 0;
        SliceOfTail(s, i - 1, |pattern|);
        assert MatchesAt(s[1..], pattern, i - 1);
      }
    }
  }

  /** Overlay curves are recognised by name, ignoring case. */
  predicate IsOverlay(id: string)
    ensures IsOverlay(id) <==> OccursIn(Marker, Lower(id))
  {
    ContainsIffOccurs(Lower(id), Marker);
    Contains(Lower(id), Marker)
  }

  /** The styles after tapping `tapped`: every other non-overlay curve dim,
      the tapped curve and the overlays as they were. */
  function Highlighted(styles: Styles, tapped: string): Styles {
    map id | id in styles :: if id != tapped && !IsOverlay(id) then Dim else styles[id]
  }

  /** The styles after the delayed reset: every non-overlay curve, the tapped
      one included, back to normal. */
  function Reset(styles: Styles): Styles {
    map id | id in styles :: if !IsOverlay(id) then Normal else styles[id]
  }

  /** The tap handler's loop over the graph's plots. */
  method HighlightOutputCurves(plots: seq<string>, styles: Styles, tapped: string) returns (r: Styles)
    requires forall id :: id in styles <==> id in plots
    ensures r.Keys == styles.Keys
    ensures forall id :: id in styles && id != tapped && !IsOverlay(id) ==> r[id] == Dim
    ensures forall id :: id in styles && (id == tapped || IsOverlay(id)) ==> r[id] == styles[id]
    ensures r == Highlighted(styles, tapped)
  {
    r := styles;
    var k := 0;
    while k < |plots|
      invariant 0 <= k <= |plots|
      invariant r.Keys == styles.Keys
      invariant forall id :: id in styles && id != tapped && !IsOverlay(id) && id in plots[..k] ==> r[id] == Dim
      invariant forall id :: id in styles && (id == tapped || IsOverlay(id) || id !in plots[..k]) ==> r[id] == styles[id]
    {
      var id := plots[k];
      if !IsOverlay(id) && id != tapped {
        r := r[id := Dim];
      }
      assert plots[..k + 1] == plots[..k] + [id];
      k := k + 1;
    }
    assert plots[..k] == plots;
  }

  /** The delayed reset's loop over the graph's plots. */
  method ResetOutputCurves(plots: seq<string>, styles: Styles) returns (r: Styles)
    requires forall id :: id in styles <==> id in plots
    ensures r.Keys == styles.Keys
    ensures forall id :: id in styles && !IsOverlay(id) ==> r[id] == Normal
    ensures forall id :: id in styles && IsOverlay(id) ==> r[id] == styles[id]
    ensures r == Reset(styles)
  {
    r := styles;
    var k := 0;
    while k < |plots|
      invariant 0 <= k <= |plots|
      invariant r.Keys == styles.Keys
      invariant forall id :: id in styles && !IsOverlay(id) && id in plots[..k] ==> r[id] == Normal
      invariant forall id :: id in styles && (IsOverlay(id) || id !in plots[..k]) ==> r[id] == styles[id]
    {
      var id := plots[k];
      if !IsOverlay(id) {
        r := r[id := Normal];
      }
      assert plots[..k + 1] == plots[..k] + [id];
      k := k + 1;
    }
    assert plots[..k] == plots;
  }

  /** Reset undoes any highlight: the outcome is as if the tap never happened. */
  lemma ResetAfterHighlight(styles: Styles, tapped: string)
    ensures Reset(Highlighted(styles, tapped)) == Reset(styles)
    ensures forall id :: id in styles && !IsOverlay(id) ==> Reset(Highlighted(styles, tapped))[id] == Normal
  {
  }

  lemma ResetIdempotent(styles: Styles)
    ensures Reset(Reset(styles)) == Reset(styles)
  {
  }

  lemma HighlightIdempotent(styles: Styles, tapped: string)
    ensures Highlighted(Highlighted(styles, tapped), tapped) == Highlighted(styles, tapped)
  {
  }

  /** The tapped curve is never brightened: tapping a second curve before
      the first tap's reset leaves every non-overlay curve dim. */
  lemma SecondTapLeavesAllDim(styles: Styles, first: string, second: string)
    requires first != second
    ensures forall id :: id in styles && !IsOverlay(id)
              ==> Highlighted(Highlighted(styles, first), second)[id] == Dim
  {
  }

  /** Overlays keep their style through any highlight or reset. */
  lemma OverlaysUntouched(styles: Styles, tapped: string, id: string)
    requires id in styles && IsOverlay(id)
    ensures Highlighted(styles, tapped)[id] == styles[id]
    ensures Reset(styles)[id] == styles[id]
  {
  }

  /** Upper-case letters in the marker still mark an overlay. */
  lemma MarkerIgnoresCase()
    ensures IsOverlay("HighLight")
  {
  }
}

=== FILE: journal.dfy ===
/**
 A journal entry: some text, an optional photo and a date. An entry with no
 text and no photo cannot be made. Entries are archived as keyed records with
 one key per property.
 */
module Journal {
  import opened Wrappers

  /** An attached image; its content is opaque here. */
  datatype Photo = Photo(id: nat)

  datatype Entry = Entry(text: string, photo: Option<Photo>, date: real)

  const TextKey: string := "text"
  const PhotoKey: string := "photo"
  const DateKey: string := "date"

  /** What a keyed record can hold under a key. */
  datatype Value = Text(s: string) | Image(p: Photo) | Instant(t: real) | Null

  type Coder = map<string, Value>

  /** Entries that the failable initializer lets through. */
  predicate Valid(e: Entry) {
    e.text != [] || e.photo.Some?
  }

  /** The failable initializer: nil exactly when there is neither text nor photo. */
  function NewEntry(text: string, photo: Option<Photo>, date: real): (r: Option<Entry>)
    ensures r.None? <==> text == [] && photo.None?
    ensures r.Some? ==> r.value.text == text && r.value.photo == photo && r.value.date == date
    ensures r.Some? ==> Valid(r.value)
  {
    if text == [] && photo.None? then None else Some(Entry(text, photo, date))
  }

  /** Writes each property under its own key; a missing photo is written as null. */
  function Encode(e: Entry): (c: Coder)
    ensures c.Keys == {TextKey, PhotoKey, DateKey} && |c.Keys| == 3
    ensures Decodable(c)
  {
    map[TextKey := Text(e.text),
        PhotoKey := (match e.photo case Some(p) => Image(p) case None => Null),
        DateKey := Instant(e.date)]
  }

  /** Text and date are force-cast on decoding, so both must be present with
      the right kind of value; the photo is cast conditionally. */
  predicate Decodable(c: Coder) {
    && TextKey in c && c[TextKey].Text?
    && DateKey in c && c[DateKey].Instant?
  }

  /** The photo under its key, if there is one and it is an image. */
  function PhotoIn(c: Coder): Option<Photo> {
    if PhotoKey in c && c[PhotoKey].Image? then Some(c[PhotoKey].p) else None
  }

  /** Decoding goes through the failable initializer. */
  function Decode(c: Coder): (r: Option<Entry>)
    requires Decodable(c)
    ensures r.None? <==> c[TextKey].s == [] && PhotoIn(c).None?
    ensures r.Some? ==> r.value == Entry(c[TextKey].s, PhotoIn(c), c[DateKey].t)
  {
    NewEntry(c[TextKey].s, PhotoIn(c), c[DateKey].t)
  }

  /** Decoding an encoded entry gives it back when it is valid and nil otherwise. */
  lemma DecodeEncode(e: Entry)
    ensures Decode(Encode(e)) == (if Valid(e) then Some(e) else None)
  {
  }

  /** Every entry the initializer produces survives an encode/decode round trip. */
  lemma InitializedEntriesRoundTrip(text: string, photo: Option<Photo>, date: real)
    requires NewEntry(text, photo, date).Some?
    ensures var e := NewEntry(text, photo, date).value;
            Decode(Encode(e)) == Some(e)
  {
  }
}

/**
 Saving and loading the journal: both hand back the entries sorted newest
 first. The archive itself is a store that returns either the list it holds
 or nothing.
 */
module JournalArchive {
  import opened Wrappers
  import opened Journal

  /** Dates never increase along the list. */
  ghost predicate NewestFirst(s: seq<Entry>) {
    forall i, j :: 0 <= i < j < |s| ==> s[i].date >= s[j].date
  }

  /** Each entry is at least as new as the next one. */
  ghost predicate AdjacentNewestFirst(s: seq<Entry>) {
    forall i :: 0 <= i < |s| - 1 ==> s[i].date >= s[i + 1].date
  }

  lemma {:induction false} NewestFirstIffAdjacent(s: seq<Entry>)
    ensures NewestFirst(s) <==> AdjacentNewestFirst(s)
    decreases |s|
  {
    if |s| >= 2 && AdjacentNewestFirst(s) {
      NewestFirstIffAdjacent(s[1..]);
      assert AdjacentNewestFirst(s[1..]) by {
        forall i | 0 <= i < |s[1..]| - 1
          ensures s[1..][i].date >= s[1..][i + 1].date
        {
          assert s[1..][i] == s[i + 1] && s[1..][i + 1] == s[i + 2];
        }
      }
      forall i, j | 0 <= i < j < |s|
        ensures s[i].date >= s[j].date
      {
        if i > 0 {
          assert s[i] == s[1..][i - 1] && s[j] == s[1..][j - 1];
        } else if j > 1 {
          assert s[1] == s[1..][0] && s[j] == s[1..][j - 1];
        }
      }
    }
  }

  /** Places `x` before the first entry older than it. */
  function Insert(x: Entry, s: seq<Entry>): (r: seq<Entry>)
    requires NewestFirst(s)
    ensures NewestFirst(r)
    ensures multiset(r) == multiset(s) + multiset{x}
    ensures forall k :: 0 <= k < |r| ==> r[k] == x || r[k] in s
    decreases |s|
  {
    if s == [] || x.date >= s[0].date then [x] + s
    else
      var rest := Insert(x, s[1..]);
      InsertBehindNewest(x, s, rest);
      [s[0]] + rest
  }

  /** `s[0]` may lead once `x`, which is older, has gone into the tail. */
  lemma InsertBehindNewest(x: Entry, s: seq<Entry>, rest: seq<Entry>)
    requires NewestFirst(s) && s != [] && x.date < s[0].date
    requires NewestFirst(rest)
    requires multiset(rest) == multiset(s[1..]) + multiset{x}
    requires forall k :: 0 <= k < |rest| ==> rest[k] == x || rest[k] in s[1..]
    ensures NewestFirst([s[0]] + rest)
    ensures multiset([s[0]] + rest) == multiset(s) + multiset{x}
  {
    assert s == [s[0]] + s[1..];
    forall k | 0 <= k < |rest|
      ensures s[0].date >= rest[k].date
    {
      if rest[k] != x {
        var j :| 0 <= j < |s[1..]| && s[1..][j] == rest[k];
        assert s[1..][j] == s[j + 1];
      }
    }
  }

  /** One way to order the entries newest first; entries with equal dates
      may come out in any order, and nothing below depends on which. */
  function SortNewestFirst(s: seq<Entry>): (r: seq<Entry>)
    ensures NewestFirst(r)
    ensures multiset(r) == multiset(s)
    decreases |s|
  {
    if s == [] then []
    else
      assert s == [s[0]] + s[1..];
      Insert(s[0], SortNewestFirst(s[1..]))
  }

  /** The list handed to the archiver when the journal is saved. */
  function Save(entries: seq<Entry>): (archived: seq<Entry>)
    ensures NewestFirst(archived)
    ensures multiset(archived) == multiset(entries)
  {
    SortNewestFirst(entries)
  }

  /** Loading: nothing when the archive yields nothing, otherwise what it
      yields, newest first. */
  function Load(unarchived: Option<seq<Entry>>): (r: Option<seq<Entry>>)
    ensures r.None? <==> unarchived.None?
    ensures r.Some? ==> NewestFirst(r.value) && multiset(r.value) == multiset(unarchived.value)
  {
    match unarchived
    case None => None
    case Some(entries) => Some(SortNewestFirst(entries))
  }

  function Dates(s: seq<Entry>): (d: seq<real>)
    ensures |d| == |s|
    ensures forall i :: 0 <= i < |s| ==> d[i] == s[i].date
  {
    seq(|s|, i requires 0 <= i < |s| => s[i].date)
  }

  lemma DatesOfConcat(u: seq<Entry>, v: seq<Entry>)
    ensures Dates(u + v) == Dates(u) + Dates(v)
  {
  }

  /** Lists holding the same entries hold the same dates. */
  lemma {:induction false} SameEntriesSameDates(a: seq<Entry>, b: seq<Entry>)
    requires multiset(a) == multiset(b)
    ensures multiset(Dates(a)) == multiset(Dates(b))
    decreases |a|
  {
    if a == [] {
      assert |b| == |multiset(b)| == 0;
    } else {
      var x := a[0];
      assert x in multiset(b);
      var k :| 0 <= k < |b| && b[k] == x;
      var rest := b[..k] + b[k + 1..];
      assert b == b[..k] + [x] + b[k + 1..];
      assert a == [x] + a[1..];
      assert multiset(b) == multiset(b[..k]) + multiset{x} + multiset(b[k + 1..]);
      assert multiset(a) == multiset{x} + multiset(a[1..]);
      assert multiset(rest) == multiset(b[..k]) + multiset(b[k + 1..]);
      assert multiset(a[1..]) == multiset(a) - multiset{x};
      assert multiset(rest) == multiset(b) - multiset{x};
      SameEntriesSameDates(a[1..], rest);
      DatesOfConcat([x], a[1..]);
      DatesOfConcat(b[..k] + [x], b[k + 1..]);
      DatesOfConcat(b[..k], [x]);
      DatesOfConcat(b[..k], b[k + 1..]);
    }
  }

  ghost predicate NonIncreasing(d: seq<real>) {
    forall i, j :: 0 <= i < j < |d| ==> d[i] >= d[j]
  }

  /** A multiset of numbers has only one non-increasing arrangement. */
  lemma {:induction false} NonIncreasingIsUnique(x: seq<real>, y: seq<real>)
    requires multiset(x) == multiset(y)
    requires NonIncreasing(x) && NonIncreasing(y)
    ensures x == y
    decreases |x|
  {
    assert |x| == |multiset(x)| == |multiset(y)| == |y|;
    if x != [] {
      assert x[0] in multiset(y);
      assert y[0] in multiset(x);
      assert x == [x[0]] + x[1..] && y == [y[0]] + y[1..];
      assert x[0] == y[0];
      assert multiset(x) == multiset{x[0]} + multiset(x[1..]);
      assert multiset(y) == multiset{y[0]} + multiset(y[1..]);
      assert multiset(x[1..]) == multiset(x) - multiset{x[0]};
      assert multiset(y[1..]) == multiset(y) - multiset{y[0]};
      NonIncreasingIsUnique(x[1..], y[1..]);
    }
  }

  /** However ties are broken, any two newest-first orderings of the same
      entries agree date by date. */
  lemma SortedPermutationsShareDates(a: seq<Entry>, b: seq<Entry>)
    requires multiset(a) == multiset(b)
    requires NewestFirst(a) && NewestFirst(b)
    ensures Dates(a) == Dates(b)
  {
    SameEntriesSameDates(a, b);
    NonIncreasingIsUnique(Dates(a), Dates(b));
  }

  /** Loading what was saved gives back the saved entries, in the saved date order. */
  lemma LoadAfterSave(entries: seq<Entry>)
    ensures Load(Some(Save(entries))).Some?
    ensures multiset(Load(Some(Save(entries))).value) == multiset(entries)
    ensures Dates(Load(Some(Save(entries))).value) == Dates(Save(entries))
  {
    SortedPermutationsShareDates(Load(Some(Save(entries))).value, Save(entries));
  }
}

=== FILE: palette.dfy ===
/**
 Round-robin colour assignment: a curve's palette slot is the position of the
 first registration of its name, modulo the palette size. Colour components
 are in hundredths (1.0 is 100, alpha 0.3 is 30).
 */
module Palette {

  datatype Colour = Colour(red: nat, green: nat, blue: nat, alpha: nat)

  const FullAlpha: nat := 100
  const DimAlpha: nat := 30

  /** Cyan, then magenta twice: the second and third entries are the same colour. */
  const PlotColours: seq<Colour> := [
    Colour(0, 100, 100, FullAlpha),
    Colour(100, 0, 100, FullAlpha),
    Colour(100, 0, 100, FullAlpha)
  ]

  const PlotDimColours: seq<Colour> := [
    Colour(0, 100, 100, DimAlpha),
    Colour(100, 0, 100, DimAlpha),
    Colour(100, 0, 100, DimAlpha)
  ]

  /** Registration: names are appended in plotting order, duplicates included. */
  function Register(names: seq<string>, name: string): (r: seq<string>)
    ensures |r| == |names| + 1
    ensures r[..|names|] == names && r[|names|] == name
  {
    names + [name]
  }

  /** Position of the first occurrence of `name`; the lookup force-unwraps,
      so an unregistered name is outside the contract. */
  function FirstIndex(names: seq<string>, name: string): (i: nat)
    requires name in names
    ensures i < |names| && names[i] == name
    ensures forall j :: 0 <= j < i ==> names[j] != name
  {
    if names[0] == name then 0 else 1 + FirstIndex(names[1..], name)
  }

  function Slot(names: seq<string>, name: string): (k: nat)
    requires name in names
    ensures k < |PlotColours| && k < |PlotDimColours|
    ensures k == FirstIndex(names, name) % 3
  {
    FirstIndex(names, name) % |PlotColours|
  }

  /** Full-strength colour of a registered curve. */
  function PlotColourFor(names: seq<string>, name: string): (c: Colour)
    requires name in names
    ensures c.alpha == FullAlpha
  {
    PlotColours[Slot(names, name)]
  }

  /** Dimmed colour of a registered curve. */
  function PlotDimColourFor(names: seq<string>, name: string): (c: Colour)
    requires name in names
    ensures c.alpha == DimAlpha
  {
    PlotDimColours[Slot(names, name)]
  }

  /** The dim colour is the full colour at the same slot, made translucent. */
  lemma DimIsTranslucentFull(names: seq<string>, name: string)
    requires name in names
    ensures PlotDimColourFor(names, name) == PlotColourFor(names, name).(alpha := DimAlpha)
    ensures PlotColourFor(names, name) == PlotColours[Slot(names, name)]
    ensures PlotDimColourFor(names, name) == PlotDimColours[Slot(names, name)]
  {
  }

  /** Registering anything more never moves an already registered curve's slot. */
  lemma {:induction false} RegisterKeepsSlots(names: seq<string>, name: string, newName: string)
    requires name in names
    ensures name in Register(names, newName)
    ensures FirstIndex(Register(names, newName), name) == FirstIndex(names, name)
    ensures PlotColourFor(Register(names, newName), name) == PlotColourFor(names, name)
  {
    var i := FirstIndex(names, name);
    var r := Register(names, newName);
    assert r[i] == name;
    FirstIndexIsFirst(r, name, i);
  }

  /** Appending is what makes the assignment round-robin: a name registered
      for the first time takes the slot after the previous registration's. */
  lemma FreshNameSlot(names: seq<string>, name: string)
    requires name !in names
    ensures Slot(Register(names, name), name) == |names| % 3
  {
    var r := Register(names, name);
    assert r[|names|] == name;
    FirstIndexIsFirst(r, name, |names|);
  }

  /** Any position holding `name` with no earlier occurrence is its first index. */
  lemma FirstIndexIsFirst(names: seq<string>, name: string, i: nat)
    requires i < |names| && names[i] == name
    requires forall j :: 0 <= j < i ==> names[j] != name
    ensures FirstIndex(names, name) == i
  {
  }

  /** With four distinct names registered in order, the fourth wraps around
      to the first one's colours. */
  lemma FourthSharesFirstSlot(names: seq<string>)
    requires |names| >= 4
    requires forall i, j :: 0 <= i < j < 4 ==> names[i] != names[j]
    ensures Slot(names, names[3]) == Slot(names, names[0])
    ensures PlotColourFor(names, names[3]) == PlotColourFor(names, names[0])
    ensures PlotDimColourFor(names, names[3]) == PlotDimColourFor(names, names[0])
  {
  }

  /** The second and third slots look alike, so only two visibly different
      colours are ever used. */
  lemma OnlyTwoDistinctColours(names: seq<string>, a: string, b: string)
    requires a in names && b in names
    requires Slot(names, a) != 0 && Slot(names, b) != 0
    ensures PlotColourFor(names, a) == PlotColourFor(names, b)
  {
  }
}

=== FILE: plot_space.dfy ===
/**
 The plot space of the time-series screen: the visible x (time) and y (value)
 ranges, the x axis's tick spec, the delegate that filters every pan/zoom
 request, the reset button, and the conversion from a sample's absolute
 timestamp to a plot x coordinate.
 */
module PlotSpace {
  import opened TickPolicy

  datatype Coordinate = X | Y

  datatype PlotRange = PlotRange(location: real, length: real)

  datatype Space = Space(xRange: PlotRange, yRange: PlotRange, xAxis: TickSpec)

  /** The first thirty days after `refDate`, four-day major ticks, and the fixed value band. */
  const InitXRange: PlotRange := PlotRange(0.0 * Hour, 30.0 * Day)
  const InitMajorInterval: real := Day * 4.0
  const InitYRange: PlotRange := PlotRange(-3.0, 14.0)

  /** The range the delegate answers for a requested change of `coord`:
      x requests pass unchanged (the negative-location branch only takes a
      copy), y requests are answered with the current y range. */
  function FilterRange(space: Space, coord: Coordinate, requested: PlotRange): (r: PlotRange)
    ensures coord == X ==> r == requested
    ensures coord == Y ==> r == space.yRange
  {
    match coord
    case X => if requested.location < 0.0 then PlotRange(requested.location, requested.length) else requested
    case Y => space.yRange
  }

  /** One pan/zoom request: the delegate retunes the x axis when x is asked
      to change, and the plot space adopts whatever range it answered. */
  function ApplyRangeRequest(space: Space, coord: Coordinate, requested: PlotRange, refDate: real): (r: Space)
    ensures r.yRange == space.yRange
    ensures coord == X ==> r.xRange == requested && r.xAxis == TickSpecFor(requested.length, refDate)
    ensures coord == Y ==> r == space
  {
    var answer := FilterRange(space, coord, requested);
    match coord
    case X => Space(answer, space.yRange, TickSpecFor(answer.length, refDate))
    case Y => space.(yRange := answer)
  }

  datatype Request = Request(coord: Coordinate, range: PlotRange)

  /** A gesture's worth of requests, applied in order. */
  function ApplyRequests(space: Space, requests: seq<Request>, refDate: real): Space
    decreases |requests|
  {
    if requests == [] then space
    else ApplyRequests(ApplyRangeRequest(space, requests[0].coord, requests[0].range, refDate), requests[1..], refDate)
  }

  /** Pan and zoom never move the y range, whatever is requested. */
  lemma {:induction false} YRangeNeverMoves(space: Space, requests: seq<Request>, refDate: real)
    ensures ApplyRequests(space, requests, refDate).yRange == space.yRange
    decreases |requests|
  {
    if requests != [] {
      var next := ApplyRangeRequest(space, requests[0].coord, requests[0].range, refDate);
      YRangeNeverMoves(next, requests[1..], refDate);
    }
  }

  /** The x axis's ticks match its visible length and the reference date is `refDate`. */
  ghost predicate AxisMatchesRange(space: Space, refDate: real) {
    space.xAxis == TickSpecFor(space.xRange.length, refDate)
  }

  /** Once the axis matches the x range, every later pan/zoom keeps it so, and the
      x range shown is the last x range requested. */
  lemma {:induction false} RequestsKeepAxisMatched(space: Space, requests: seq<Request>, refDate: real)
    requires AxisMatchesRange(space, refDate)
    ensures AxisMatchesRange(ApplyRequests(space, requests, refDate), refDate)
    ensures (forall k :: 0 <= k < |requests| ==> requests[k].coord == Y)
            ==> ApplyRequests(space, requests, refDate).xRange == space.xRange
    ensures |requests| > 0 && requests[|requests| - 1].coord == X
            ==> ApplyRequests(space, requests, refDate).xRange == requests[|requests| - 1].range
    decreases |requests|
  {
    if requests != [] {
      var next := ApplyRangeRequest(space, requests[0].coord, requests[0].range, refDate);
      RequestsKeepAxisMatched(next, requests[1..], refDate);
      assert requests[1..] == [] || requests[|requests| - 1] == requests[1..][|requests[1..]| - 1];
      if forall k :: 0 <= k < |requests| ==> requests[k].coord == Y {
        assert forall k :: 0 <= k < |requests[1..]| ==> requests[1..][k] == requests[k + 1];
      }
    }
  }

  /** The reset button assigns the initial x and y ranges and leaves the axis alone. */
  function ResetButton(space: Space): (r: Space)
    ensures r.xRange == InitXRange && r.yRange == InitYRange
    ensures r.xAxis == space.xAxis
  {
    space.(xRange := InitXRange, yRange := InitYRange)
  }

  /** The direct assignments and the setter route agree on both ranges
      whenever y has never moved; they differ only in that the setter
      route also retunes the axis to the initial window when x had moved. */
  lemma ResetRoutesDifferOnlyInAxis(space: Space, refDate: real)
    requires space.yRange == InitYRange
    ensures space.xRange != InitXRange ==>
              ResetViaDelegate(space, refDate)
              == ResetButton(space).(xAxis := TickSpecFor(InitXRange.length, refDate))
    ensures space.xRange == InitXRange ==> ResetViaDelegate(space, refDate) == ResetButton(space)
  {
  }

  /** The reset button's two assignments, x then y, through the plot
      space's setters: a setter handed the range already shown changes
      nothing and does not consult the delegate; otherwise the delegate
      answers. So x goes back to the initial window, and the axis is retuned
      to it only when x had moved; y, being refused, stays where it was. */
  function ResetViaDelegate(space: Space, refDate: real): (r: Space)
    ensures r.xRange == InitXRange && r.yRange == space.yRange
    ensures AxisMatchesRange(r, refDate)
            <==> space.xRange != InitXRange || AxisMatchesRange(space, refDate)
    ensures space.xRange == InitXRange ==> r == space
    ensures space.xRange != InitXRange && space.yRange == InitYRange
            ==> r == Space(InitXRange, InitYRange, TickSpecFor(InitXRange.length, refDate))
  {
    var afterX := if space.xRange == InitXRange then space
                  else ApplyRangeRequest(space, X, InitXRange, refDate);
    if afterX.yRange == InitYRange then afterX
    else ApplyRangeRequest(afterX, Y, InitYRange, refDate)
  }

  /** The initial four-day interval is what the ladder gives a thirty-day window. */
  lemma InitialIntervalMatchesLadder(refDate: real)
    ensures TickSpecFor(InitXRange.length, refDate) == TickSpec(InitMajorInterval, DayFormat, refDate)
  {
  }

  /** Plot x coordinate of a sample taken at absolute time `timestamp`. */
  function XOffset(timestamp: real, refDate: real): (x: real)
    ensures x + refDate == timestamp
    ensures timestamp >= refDate <==> x >= 0.0
  {
    timestamp - refDate
  }

  /** The absolute instant the label formatter renders for plot coordinate `x`:
      the one whose offset from the axis's reference date is `x`. */
  function LabelInstant(axis: TickSpec, x: real): (t: real)
    ensures XOffset(t, axis.referenceDate) == x
  {
    axis.referenceDate + x
  }

  /** `refDate` as the screen sets it when it appears: thirty days before `appearDate`. */
  function AppearRefDate(appearDate: real): (r: real)
    ensures r < appearDate
    ensures XOffset(appearDate, r) == InitXRange.location + InitXRange.length
  {
    appearDate - 30.0 * Day
  }

  /** With the axis referenced to `refDate`, a sample's label shows its own timestamp. */
  lemma LabelShowsTimestamp(axis: TickSpec, timestamp: real, refDate: real)
    requires axis.referenceDate == refDate
    ensures LabelInstant(axis, XOffset(timestamp, refDate)) == timestamp
  {
  }

  /** Every sample from the last thirty days before the screen appeared lies in the initial x window. */
  lemma InitialWindowShowsLastThirtyDays(timestamp: real, appearDate: real)
    requires appearDate - 30.0 * Day <= timestamp <= appearDate
    ensures var x := XOffset(timestamp, AppearRefDate(appearDate));
            InitXRange.location <= x <= InitXRange.location + InitXRange.length
  {
  }

  /** The plot space as the code leaves it after the screen appears: the
      ranges and axis set up when the view loaded, with the label formatter
      still referenced to `loadDate`, the value `refDate` had at that time. */
  function AppearedSpaceAsWritten(loadDate: real): (r: Space)
    ensures r.xRange == InitXRange && r.yRange == InitYRange
    ensures r.xAxis.majorInterval == InitMajorInterval && r.xAxis.format == DayFormat
    ensures r.xAxis.referenceDate == loadDate
  {
    Space(InitXRange, InitYRange, TickSpec(InitMajorInterval, DayFormat, loadDate))
  }

  /** Until the first x pan or zoom, every label in the as-written initial
      state is thirty days, less the time between loading and appearing,
      later than the sample it sits under; when the screen appears within a
      day of loading, that is at least twenty-nine days. */
  lemma InitialLabelsLagAsWritten(loadDate: real, appearDate: real, timestamp: real)
    ensures var x := XOffset(timestamp, AppearRefDate(appearDate));
            LabelInstant(AppearedSpaceAsWritten(loadDate).xAxis, x) == timestamp + 30.0 * Day - (appearDate - loadDate)
    ensures loadDate <= appearDate <= loadDate + Day ==>
            var x := XOffset(timestamp, AppearRefDate(appearDate));
            LabelInstant(AppearedSpaceAsWritten(loadDate).xAxis, x) >= timestamp + 29.0 * Day
  {
  }

  /** The initial plot space with the label formatter re-referenced when
      `refDate` moves; this is the initial state the screen model uses. */
  function AppearedSpace(appearDate: real): (r: Space)
    ensures r.xRange == InitXRange && r.yRange == InitYRange
    ensures AxisMatchesRange(r, AppearRefDate(appearDate))
    ensures forall timestamp :: LabelInstant(r.xAxis, XOffset(timestamp, AppearRefDate(appearDate))) == timestamp
  {
    Space(InitXRange, InitYRange, TickSpec(InitMajorInterval, DayFormat, AppearRefDate(appearDate)))
  }
}

=== FILE: screen.dfy ===
/**
 The time-series screen as a state machine over the events its host
 delivers: pan/zoom requests, taps on a plot symbol, the delayed reset
 scheduled by each tap, and the reset button. Reset timers are never
 cancelled: each tap schedules one more, and each that fires resets every
 non-overlay curve, whichever tap scheduled it.
 */
module Screen {
  import opened Wrappers
  import opened TickPolicy
  import opened PlotSpace
  import opened Palette
  import opened Highlight

  /** One record of a plot: absolute time in seconds and the plotted value. */
  datatype Sample = Sample(timestamp: real, value: real)

  /** The text label placed on the plot area at a tapped record. */
  datatype Annotation = Annotation(text: string, anchorX: real, anchorY: real)

  datatype Screen = Screen(
    names: seq<string>,              // registration order, for palette slots
    data: map<string, seq<Sample>>,  // records of each plot, by plot identifier
    refDate: real,                   // instant that x coordinate 0 stands for
    space: Space,
    styles: Styles,
    annotation: Option<Annotation>,  // the single annotation slot
    shown: seq<Annotation>,          // annotations on the plot area
    pendingResets: nat)              // delayed resets scheduled and not yet fired

  datatype Event =
    | RangeRequested(coord: Coordinate, range: PlotRange)
    | SymbolTapped(plot: string, index: nat, hasPlotArea: bool)
    | ResetTimerFired
    | ResetButtonPressed

  /** The screen once it has appeared: every plot registered and drawn
      normally, no annotation, nothing scheduled, and the x axis's labels
      referenced to `refDate` (the corrected initial state). */
  function Appeared(names: seq<string>, data: map<string, seq<Sample>>, appearDate: real): (s: Screen)
    requires forall id :: id in data ==> id in names
    ensures Inv(s)
    ensures forall id :: id in s.styles ==> s.styles[id] == Normal
    ensures s.space.xRange == InitXRange && s.space.yRange == InitYRange
  {
    Screen(names, data, AppearRefDate(appearDate), AppearedSpace(appearDate),
           map id | id in data :: Normal, None, [], 0)
  }

  /** The screen as the code leaves it on appearing: as `Appeared`, except
      that the label formatter still refers to `loadDate`. */
  function AppearedAsWritten(names: seq<string>, data: map<string, seq<Sample>>, loadDate: real, appearDate: real): (s: Screen)
    requires forall id :: id in data ==> id in names
    ensures s.space == AppearedSpaceAsWritten(loadDate)
    ensures s.space.xAxis.referenceDate != s.refDate <==> loadDate != AppearRefDate(appearDate)
  {
    Appeared(names, data, appearDate).(space := AppearedSpaceAsWritten(loadDate))
  }

  /** No event of `events` is an x pan or zoom. */
  predicate NoXRequest(events: seq<Event>) {
    forall k :: 0 <= k < |events| ==> !(events[k].RangeRequested? && events[k].coord == X)
  }

  /** `a` and `c` differ at most in the x axis's tick spec. */
  ghost predicate SameButAxis(a: Screen, c: Screen) {
    && a == c.(space := a.space)
    && a.space.xRange == c.space.xRange
    && a.space.yRange == c.space.yRange
  }

  /** Taps, timer firings, y requests and the reset button never read the
      axis spec, so they keep two such screens apart only in it. */
  lemma StepKeepsSameButAxis(a: Screen, c: Screen, e: Event)
    requires SameButAxis(a, c) && Delivers(a.data, e)
    requires !(e.RangeRequested? && e.coord == X)
    ensures SameButAxis(Step(a, e), Step(c, e))
  {
  }

  lemma {:induction false} RunKeepsSameButAxis(a: Screen, c: Screen, events: seq<Event>)
    requires SameButAxis(a, c) && DeliversAll(a.data, events) && NoXRequest(events)
    ensures DeliversAll(c.data, events)
    ensures SameButAxis(Run(a, events), Run(c, events))
    decreases |events|
  {
    if events != [] {
      StepKeepsSameButAxis(a, c, events[0]);
      assert DeliversAll(Step(a, events[0]).data, events[1..]) && NoXRequest(events[1..]) by {
        assert forall k :: 0 <= k < |events[1..]| ==> events[1..][k] == events[k + 1];
      }
      RunKeepsSameButAxis(Step(a, events[0]), Step(c, events[0]), events[1..]);
    }
  }

  /** The as-written start breaks the invariant only until the first x pan
      or zoom, which re-references the labels: whatever taps, timer firings,
      y requests or reset presses come before it, from then on the two
      programs agree. */
  lemma AsWrittenAgreesAfterFirstXRequest(names: seq<string>, data: map<string, seq<Sample>>,
                                          loadDate: real, appearDate: real,
                                          before: seq<Event>, range: PlotRange)
    requires forall id :: id in data ==> id in names
    requires DeliversAll(data, before) && NoXRequest(before)
    ensures var w := Run(AppearedAsWritten(names, data, loadDate, appearDate), before);
            var c := Run(Appeared(names, data, appearDate), before);
            && Step(w, RangeRequested(X, range)) == Step(c, RangeRequested(X, range))
            && Inv(Step(w, RangeRequested(X, range)))
  {
    var a0 := AppearedAsWritten(names, data, loadDate, appearDate);
    var c0 := Appeared(names, data, appearDate);
    RunKeepsSameButAxis(a0, c0, before);
    RunKeepsInv(c0, before);
    StepKeepsInv(Run(c0, before), RangeRequested(X, range));
  }

  /** A reset press before any x pan or zoom leaves the as-written screen
      as it was: x is already at the initial window, so the setter does not
      consult the delegate and the labels keep their load-time reference. */
  lemma ResetKeepsAsWrittenLabels(names: seq<string>, data: map<string, seq<Sample>>,
                                  loadDate: real, appearDate: real)
    requires forall id :: id in data ==> id in names
    ensures var w := AppearedAsWritten(names, data, loadDate, appearDate);
            && Step(w, ResetButtonPressed) == w
            && (Inv(Step(w, ResetButtonPressed)) ==> loadDate == AppearRefDate(appearDate))
  {
  }

  /** The plot coordinates of a record: its time as an offset from `refDate`, and its value. */
  function PlotPoint(s: Screen, plot: string, index: nat): (p: (real, real))
    requires plot in s.data && index < |s.data[plot]|
    ensures p.0 + s.refDate == s.data[plot][index].timestamp
    ensures p.1 == s.data[plot][index].value
  {
    (XOffset(s.data[plot][index].timestamp, s.refDate), s.data[plot][index].value)
  }

  /** Takes `a` off the plot area, if it is there. */
  function Without(shown: seq<Annotation>, a: Option<Annotation>): (r: seq<Annotation>)
    ensures a.Some? ==> a.value !in r
    ensures forall b :: b in r <==> b in shown && a != Some(b)
    ensures |r| <= |shown|
    decreases |shown|
  {
    if shown == [] then []
    else if a == Some(shown[0]) then Without(shown[1..], a)
    else [shown[0]] + Without(shown[1..], a)
  }

  /** The curve's current line colour: the palette's full colour when it is
      drawn normally, its dim colour when dimmed, as the highlight and reset
      loops assign them (TimeSeriesPlots/ViewController.swift:235, 307, 327). */
  function LineColour(s: Screen, id: string): Colour
    requires id in s.styles && id in s.names
  {
    match s.styles[id]
    case Normal => PlotColourFor(s.names, id)
    case Dim => PlotDimColourFor(s.names, id)
  }

  /** A tap on record `index` of `plot`: the previous annotation comes off,
      a new one is made; when the plot area exists it is shown, the other
      curves are dimmed and a reset is scheduled. */
  function Tap(s: Screen, plot: string, index: nat, hasPlotArea: bool): (r: Screen)
    requires plot in s.data && index < |s.data[plot]|
    ensures r.annotation.Some? && r.annotation.value.text == plot
    ensures r.annotation.value.anchorX + s.refDate == s.data[plot][index].timestamp
    ensures r.annotation.value.anchorY == s.data[plot][index].value
    ensures s.annotation.Some? && s.annotation != r.annotation ==> s.annotation.value !in r.shown
    ensures hasPlotArea ==> r.annotation.value in r.shown
    ensures hasPlotArea ==> r.styles == Highlighted(s.styles, plot) && r.pendingResets == s.pendingResets + 1
    ensures !hasPlotArea ==> r.styles == s.styles && r.pendingResets == s.pendingResets
    ensures r.space == s.space && r.data == s.data && r.names == s.names
  {
    var p := PlotPoint(s, plot, index);
    var a := Annotation(plot, p.0, p.1);
    var remaining := Without(s.shown, s.annotation);
    if hasPlotArea then
      s.(annotation := Some(a), shown := remaining + [a],
         styles := Highlighted(s.styles, plot), pendingResets := s.pendingResets + 1)
    else
      s.(annotation := Some(a), shown := remaining)
  }

  /** The host only reports taps on records that exist. */
  predicate Delivers(data: map<string, seq<Sample>>, e: Event) {
    e.SymbolTapped? ==> e.plot in data && e.index < |data[e.plot]|
  }

  predicate DeliversAll(data: map<string, seq<Sample>>, events: seq<Event>) {
    forall k :: 0 <= k < |events| ==> Delivers(data, events[k])
  }

  function Step(s: Screen, e: Event): (r: Screen)
    requires Delivers(s.data, e)
    ensures r.names == s.names && r.data == s.data && r.refDate == s.refDate
    ensures r.styles.Keys == s.styles.Keys
    ensures !e.SymbolTapped? ==> r.annotation == s.annotation && r.shown == s.shown
    ensures e.RangeRequested? || e.ResetButtonPressed? ==> r.styles == s.styles && r.pendingResets == s.pendingResets
    ensures e.ResetButtonPressed? ==> r.space.xRange == InitXRange && r.space.yRange == s.space.yRange
    ensures e.ResetButtonPressed? && s.space.yRange == InitYRange ==> r.space.yRange == InitYRange
    ensures e.ResetButtonPressed?
            ==> (AxisMatchesRange(r.space, s.refDate)
                 <==> s.space.xRange != InitXRange || AxisMatchesRange(s.space, s.refDate))
    ensures e.ResetButtonPressed? && s.space.xRange == InitXRange ==> r.space == s.space
    ensures e.ResetTimerFired? && s.pendingResets > 0
            ==> forall id :: id in r.styles && !IsOverlay(id) ==> r.styles[id] == Normal
    ensures !e.RangeRequested? && !e.ResetButtonPressed? ==> r.space == s.space
  {
    match e
    case RangeRequested(coord, range) => s.(space := ApplyRangeRequest(s.space, coord, range, s.refDate))
    case SymbolTapped(plot, index, hasPlotArea) => Tap(s, plot, index, hasPlotArea)
    case ResetTimerFired =>
      if s.pendingResets > 0 then s.(styles := Reset(s.styles), pendingResets := s.pendingResets - 1)
      else s
    case ResetButtonPressed =>
      // The two assignments go through the plot space's setters, x first.
      s.(space := ResetViaDelegate(s.space, s.refDate))
  }

  function Run(s: Screen, events: seq<Event>): (r: Screen)
    requires DeliversAll(s.data, events)
    ensures r.data == s.data
    decreases |events|
  {
    if events == [] then s
    else Run(Step(s, events[0]), events[1..])
  }

  /** What holds of the screen after any sequence of events. */
  ghost predicate Inv(s: Screen) {
    && s.styles.Keys == s.data.Keys
    && (forall id :: id in s.styles ==> id in s.names)
    && s.space.yRange == InitYRange
    && AxisMatchesRange(s.space, s.refDate)
    && (forall id :: id in s.styles && IsOverlay(id) ==> s.styles[id] == Normal)
    && |s.shown| <= 1
    && (s.shown != [] ==> s.annotation == Some(s.shown[0]))
  }

  lemma StepKeepsInv(s: Screen, e: Event)
    requires Inv(s) && Delivers(s.data, e)
    ensures Inv(Step(s, e))
  {
  }

  /** No event sequence breaks the invariant: y never moves, labels stay
      referenced to `refDate`, overlays stay normal, and at most one
      annotation is ever on the plot area, the one in the slot. */
  lemma {:induction false} RunKeepsInv(s: Screen, events: seq<Event>)
    requires Inv(s) && DeliversAll(s.data, events)
    ensures Inv(Run(s, events))
    decreases |events|
  {
    if events != [] {
      StepKeepsInv(s, events[0]);
      assert DeliversAll(Step(s, events[0]).data, events[1..]) by {
        assert forall k :: 0 <= k < |events[1..]| ==> events[1..][k] == events[k + 1];
      }
      RunKeepsInv(Step(s, events[0]), events[1..]);
    }
  }

  /** After a tap the plot area shows exactly one annotation, naming the
      tapped plot at the tapped record; every other non-overlay curve is
      drawn in its dim colour; the tapped curve keeps its style. */
  lemma TapShowsOneAnnotation(s: Screen, plot: string, index: nat)
    requires Inv(s) && plot in s.data && index < |s.data[plot]|
    ensures var r := Tap(s, plot, index, true);
            var sample := s.data[plot][index];
            && r.shown == [Annotation(plot, sample.timestamp - s.refDate, sample.value)]
            && r.annotation == Some(r.shown[0])
            && r.styles[plot] == s.styles[plot]
            && (forall id :: id in s.styles && id != plot && !IsOverlay(id)
                  ==> LineColour(r, id) == PlotDimColourFor(s.names, id))
            && r.pendingResets == s.pendingResets + 1
  {
  }

  /** A tap with no plot area still replaces the slot and takes the old
      annotation down, but restyles nothing and schedules nothing. */
  lemma TapWithoutPlotAreaRestylesNothing(s: Screen, plot: string, index: nat)
    requires Inv(s) && plot in s.data && index < |s.data[plot]|
    ensures var r := Tap(s, plot, index, false);
            && r.shown == [] && r.annotation.Some? && r.annotation.value.text == plot
            && r.styles == s.styles && r.pendingResets == s.pendingResets
  {
  }

  /** The first tap's reset is not cancelled by a second tap: when it fires,
      every non-overlay curve is normal again although the second tap's
      reset is still pending. */
  lemma EarlierResetEndsLaterHighlight(s: Screen, a: string, i: nat, b: string, j: nat)
    requires Inv(s)
    requires a in s.data && i < |s.data[a]| && b in s.data && j < |s.data[b]|
    ensures var events := [SymbolTapped(a, i, true), SymbolTapped(b, j, true), ResetTimerFired];
            DeliversAll(s.data, events)
            && var r := Run(s, events);
               && (forall id :: id in r.styles ==> r.styles[id] == Normal)
               && r.pendingResets == s.pendingResets + 1
  {
    var events := [SymbolTapped(a, i, true), SymbolTapped(b, j, true), ResetTimerFired];
    var s1 := Tap(s, a, i, true);
    var s2 := Tap(s1, b, j, true);
    var s3 := s2.(styles := Reset(s2.styles), pendingResets := s2.pendingResets - 1);
    assert Run(s2, [ResetTimerFired]) == s3;
    assert events[1..] == [SymbolTapped(b, j, true), ResetTimerFired];
    assert Run(s1, events[1..]) == Run(s2, [ResetTimerFired]);
    assert Run(s, events) == s3;
    forall id | id in s3.styles
      ensures s3.styles[id] == Normal
    {
      if IsOverlay(id) {
        OverlaysUntouched(s1.styles, b, id);
        OverlaysUntouched(s.styles, a, id);
      }
    }
  }

  /** In every state satisfying the invariant, which holds from the corrected
      start on, each record's x-axis label shows the record's own time. */
  lemma LabelsShowRecordTimes(s: Screen, plot: string, index: nat)
    requires Inv(s) && plot in s.data && index < |s.data[plot]|
    ensures LabelInstant(s.space.xAxis, PlotPoint(s, plot, index).0) == s.data[plot][index].timestamp
  {
  }
}

=== FILE: tick_policy.dfy ===
/**
 The adaptive x-axis tick policy of the time-series screen: whenever the visible
 time window changes, its length (in seconds) picks a major tick interval and a
 date-label format. The label reference date is the screen's `refDate` and does
 not depend on the zoom level.
 */
module TickPolicy {

  const Hour: real := 60.0 * 60.0
  const Day: real := 24.0 * Hour

  /** Date formats handed to the label formatter. */
  const DayFormat: string := "MMM dd"
  const DayHourFormat: string := "MMM dd\nh a"
  const DayHourMinuteFormat: string := "MMM dd\nh:00 a"

  /** What the x axis is told: major tick spacing, label format, and the
      instant that plot coordinate 0 stands for. */
  datatype TickSpec = TickSpec(majorInterval: real, format: string, referenceDate: real)

  /** The threshold ladder as written: strict comparisons, largest threshold first. */
  function TickSpecFor(length: real, refDate: real): (t: TickSpec)
    ensures t.referenceDate == refDate
    ensures t.majorInterval >= Day <==> t.format == DayFormat
    ensures t.format == DayHourMinuteFormat <==> length <= 8.0 * Hour
    ensures 2.0 * Hour <= t.majorInterval <= 4.0 * Day
  {
    if length > 12.0 * Day then TickSpec(4.0 * Day, DayFormat, refDate)
    else if length > 5.0 * Day then TickSpec(2.0 * Day, DayFormat, refDate)
    else if length > 2.0 * Day then TickSpec(Day, DayFormat, refDate)
    else if length > 20.0 * Hour then TickSpec(12.0 * Hour, DayHourFormat, refDate)
    else if length > 8.0 * Hour then TickSpec(4.0 * Hour, DayHourFormat, refDate)
    else TickSpec(2.0 * Hour, DayHourMinuteFormat, refDate)
  }

  /** Reference table for the ladder: a visible length strictly above
      `threshold` gets `interval` and `format`, unless an earlier rung matched. */
  datatype Rung = Rung(threshold: real, interval: real, format: string)

  const Rungs: seq<Rung> := [
    Rung(12.0 * Day, 4.0 * Day, DayFormat),
    Rung(5.0 * Day, 2.0 * Day, DayFormat),
    Rung(2.0 * Day, Day, DayFormat),
    Rung(20.0 * Hour, 12.0 * Hour, DayHourFormat),
    Rung(8.0 * Hour, 4.0 * Hour, DayHourFormat)
  ]

  /** Used when no rung matches, which covers zero and negative lengths. */
  const Fallback: Rung := Rung(0.0, 2.0 * Hour, DayHourMinuteFormat)

  /** The rung at position `i`, with position |Rungs| meaning the fallback. */
  function RungAt(i: nat): Rung
    requires i <= |Rungs|
  {
    if i < |Rungs| then Rungs[i] else Fallback
  }

  /** `i` is the first rung `length` matches (|Rungs| when none does). */
  ghost predicate IsFirstMatch(length: real, i: nat) {
    && i <= |Rungs|
    && (forall j :: 0 <= j < i ==> length <= Rungs[j].threshold)
    && (i < |Rungs| ==> length > Rungs[i].threshold)
  }

  /** The if-chain and the table agree on every length. */
  lemma LadderIsFirstMatchingRung(length: real, refDate: real, i: nat)
    requires IsFirstMatch(length, i)
    ensures TickSpecFor(length, refDate) == TickSpec(RungAt(i).interval, RungAt(i).format, refDate)
  {
    // Each rung's threshold is the guard of one branch of the chain.
    if i == 0 {
    } else if i == 1 {
      assert length <= Rungs[0].threshold;
    } else if i == 2 {
      assert length <= Rungs[0].threshold && length <= Rungs[1].threshold;
    } else if i == 3 {
      assert length <= Rungs[2].threshold;
    } else if i == 4 {
      assert length <= Rungs[2].threshold && length <= Rungs[3].threshold;
    } else {
      assert length <= Rungs[2].threshold && length <= Rungs[4].threshold;
    }
  }

  /** Walks the table top-down, as a caller holding only the table would. */
  method LookUpTickSpec(length: real, refDate: real) returns (t: TickSpec)
    ensures exists i :: IsFirstMatch(length, i) && t == TickSpec(RungAt(i).interval, RungAt(i).format, refDate)
    ensures t == TickSpecFor(length, refDate)
  {
    var i := 0;
    while i < |Rungs| && length <= Rungs[i].threshold
      invariant 0 <= i <= |Rungs|
      invariant forall j :: 0 <= j < i ==> length <= Rungs[j].threshold
    {
      i := i + 1;
    }
    t := TickSpec(RungAt(i).interval, RungAt(i).format, refDate);
    LadderIsFirstMatchingRung(length, refDate, i);
  }

  /** A length exactly on a threshold falls to the next rung down. */
  lemma BoundaryFallsToNextRung(i: nat, refDate: real)
    requires i < |Rungs|
    ensures TickSpecFor(Rungs[i].threshold, refDate)
            == TickSpec(RungAt(i + 1).interval, RungAt(i + 1).format, refDate)
  {
  }

  /** Exactly twelve days gets the two-day interval. */
  lemma TwelveDaysGetsTwoDayTicks(refDate: real)
    ensures TickSpecFor(12.0 * Day, refDate) == TickSpec(2.0 * Day, DayFormat, refDate)
  {
  }

  /** Every length up to eight hours, zero and negative ones included, gets
      two-hour ticks with the hour-and-minute format; there is no error case. */
  lemma ShortLengthsGetTwoHourTicks(length: real, refDate: real)
    requires length <= 8.0 * Hour
    ensures TickSpecFor(length, refDate) == TickSpec(2.0 * Hour, DayHourMinuteFormat, refDate)
  {
  }

  /** Zooming out never makes the ticks denser. */
  lemma IntervalMonotone(shorter: real, longer: real, refDate: real)
    requires shorter <= longer
    ensures TickSpecFor(shorter, refDate).majorInterval <= TickSpecFor(longer, refDate).majorInterval
  {
  }

  /** Only the spacing and format respond to zoom; the reference date never does. */
  lemma ReferenceDateIndependentOfZoom(a: real, b: real, refDate: real)
    ensures TickSpecFor(a, refDate).referenceDate == TickSpecFor(b, refDate).referenceDate
  {
  }
}

=== FILE: wrappers.dfy ===
/** Optional values: Swift's `T?`, a failable initializer's nil, an unarchiver that found nothing. */
module Wrappers {

  datatype Option<+T> = None | Some(value: T)
}
